=== FILE: README.md ===
# Tesserama membership register — a Dafny model

Tesserama keeps a club's membership register: one row per membership card. Each row has
six string fields: Date, Number, People, Signature, Flags and ID. The main window shows
the rows through a filtered view driven by a search needle. Cells are edited in place,
and the register is loaded from and saved to a CSV file.

This project models that core in Dafny, one module per concept:

- `Columns` (`columns.dfy`): the six columns, `SIZE`, and the conversions between a column
  and its `u8`/`u32`/`i32`/`usize` index. These include the truncating `as u8` cast.
- `ListStore` (`liststore.dfy`): the record store as a sequence of six-cell rows.
  - A cell is `Option<string>`; `None` is a read that fails, which is what a freshly
    appended row holds.
  - Row handles (`TreeIter`) and paths (`TreePath`) are positions in the store.
  - Also: append, cell reads and writes, whole-row writes, and the first/next walk.
- `Text` (`text.dfy`): the string primitives the window relies on.
  - `str::to_lowercase`, `str::split_whitespace` and `str::contains`.
  - `str::parse::<i32>` and the `{}` formatting of an `i32`.
- `Filter` (`filter.dfy`):
  - `value_matches`, `value_contains` and `filter_func`.
  - The filtered view, as the in-order list of store positions whose rows pass the
    predicate.
- `Window` (`window.dfy`): the open document, made of the store, the lower-cased needle
  and the dirty flag.
  - `set_dirty`/`is_dirty`, `search`, `convert_path` and `update_column`.
  - `insert_action`, including its scan for the next membership number.
- `Persistence` (`persistence.dfy`): the record loop of `load_data` and the row and field
  loops of `save_data`.
  - Each loop has a declarative partner: `LoadedRows` and `SavedRecords`.
  - Round-trip lemmas connect the two.

Four behaviours of the window's code that are easy to misread; the model follows the code:

- `insert_action` does not call `set_dirty`: inserting a row leaves the dirty flag as it was.
- The `break` in `save_data` only leaves the field loop. The row loop carries on, and a row
  whose read fails part-way is handed to the writer with its leading fields, provided it has
  at least three and its People field is not empty. The csv writer, which the model leaves
  out, is not flexible: it rejects a record whose length differs from the first record
  written, and the `expect` on `write_record` then panics. So in the program a short record
  among full ones aborts the save.
- An empty or all-whitespace needle is not "every row". It shows every row whose People or
  Signature field reads, because `value_contains` answers `false` for a failed read
  before it looks at the tokens.
- `window.rs` calls `get_value`, `get_iter_first`, `get_iter` and `get_path` on the store,
  while `liststore.rs` names them `value`, `iter_first`, `iter` and `path`. The model treats
  each pair as one operation.

## Model

| member | source | states |
|---|---|---|
| Columns.ToU8 | src/column.rs:32-43 | every column has an index below SIZE |
| Columns.FromU8 | src/column.rs:45-56 | an index below SIZE maps to the column with that index; larger indices panic and are excluded |
| Columns.FromU8ToU8 | src/column.rs:32-56 | converting a column to its index and back gives the same column |
| Columns.ToU8Injective | src/column.rs:32-43 | distinct columns have distinct indices |
| Columns.ToU8Onto | src/column.rs:45-56 | every index below SIZE names some column |
| Columns.AsU8 | src/column.rs:66-70 | the `as u8` cast agrees with its input modulo 256 |
| Columns.ToU32 | src/column.rs:59-64 | the `u32` index of a column is its `u8` index |
| Columns.ToI32 | src/column.rs:72-77 | the `i32` index of a column is its `u8` index |
| Columns.ToUsize | src/column.rs:85-90 | the `usize` index of a column is its `u8` index |
| Columns.WideRoundTrip | src/column.rs:59-96 | the `u32`, `i32` and `usize` indices of a column equal its `u8` index, and converting a column to any of them and back gives the same column |
| Columns.FromU32 | src/column.rs:66-70 | a `u32` names the column whose index is its value modulo 256 |
| Columns.FromI32 | src/column.rs:79-83 | an `i32` names the column whose index is its two's-complement low byte |
| Columns.FromUsize | src/column.rs:92-96 | a `usize` names the column whose index is its value modulo 256 |
| Columns.TruncationExamples | src/column.rs:66-96 | 256 names Date and -255 names Number; -1 truncates to 255, which names no column |
| ListStore.NewStore | src/liststore.rs:31-35 | a new store has no rows |
| ListStore.NewRow | src/liststore.rs:37-46 | a new record has SIZE fields, all empty strings |
| ListStore.Append | src/liststore.rs:48-50 | appending keeps the existing rows, adds one unset row at the end and returns its handle |
| ListStore.Value | src/liststore.rs:52-59 | a read returns the cell of the row at the column's index: the text, or None when the read fails, never a panic |
| ListStore.SetValue | src/liststore.rs:61-67 | writing a cell sets that cell and leaves every other cell of every row unchanged |
| ListStore.ValueAfterSetValue | src/liststore.rs:52-67 | a read after a write sees the written text in that cell and the old value elsewhere |
| ListStore.SetAllValues | src/liststore.rs:69-80 | column c of the row reads values[index of c]; the other rows are unchanged |
| ListStore.Path | src/liststore.rs:82-84 | every row has a one-index path, and `Iter` turns it back into the same handle |
| ListStore.Iter | src/liststore.rs:86-88 | a path names a row exactly when it is one index inside the store, and then it names the row at that index |
| ListStore.PathIterInverse | src/liststore.rs:82-88 | a handle converts to a path and back, and a path that resolves converts back to itself |
| ListStore.IterFirst | src/liststore.rs:90-92 | there is a first row exactly when the store is not empty |
| ListStore.IterNext | src/liststore.rs:94-96 | the next handle, when there is one, is valid and further along |
| ListStore.WalkVisitsInOrder | src/liststore.rs:90-96 | a first/next walk visits every row exactly once, in store order |
| Text.Lower | src/window.rs:476 | lower-casing keeps the length of the text |
| Text.LowerExample | src/window.rs:476 | upper-case letters fold: "Smith John, Robert" lower-cases to "smith john, robert" |
| Text.LowerIdempotent | src/window.rs:349 | lower-casing an already lower-cased needle changes nothing |
| Text.Words | src/window.rs:488 | every whitespace-separated token is non-empty and free of whitespace |
| Text.WordsOfSolid | src/window.rs:488 | a non-empty text without whitespace is a single token |
| Text.WordsCons | src/window.rs:488 | a whitespace-free run followed by whitespace or by nothing is the first token, and the rest of the text gives the remaining tokens: tokens are maximal runs |
| Text.WordsEmptyIffBlank | src/window.rs:488 | a text has no tokens exactly when it is all whitespace |
| Text.WordsCoverText | src/window.rs:488 | the tokens, concatenated, are the non-whitespace characters of the text, in order |
| Text.AllContained | src/window.rs:488-490 | the result is true exactly when every token occurs in the field |
| Text.ParseI32 | src/window.rs:452 | a successful parse yields a value in the `i32` range |
| Text.ParsedIsInteger | src/window.rs:452 | a parsable needle is an optional sign followed by digits, so it holds no whitespace and is not blank |
| Text.FormatI32 | src/window.rs:585 | the text is plain decimal: a `-` exactly for negative numbers, never a `+`, digits without a leading zero, and "0" for zero; parsing it gives the number back |
| Filter.ValueMatches | src/window.rs:464-470 | true exactly when the field reads and equals the needle |
| Filter.ValueContains | src/window.rs:472-491 | true exactly when the field reads and its lower-cased text contains every token of the needle |
| Filter.FilterFunc | src/window.rs:449-462 | a needle that parses as an `i32` shows exactly the rows whose Number reads as the needle; any other needle shows exactly the rows whose People or Signature field reads and contains every token of the needle |
| Filter.CaseInsensitiveWord | src/window.rs:456-460 | any whitespace-free piece of a People field that, lower-cased, does not parse as an `i32` is, lower-cased, a needle that shows the row, whatever the case of the field |
| Filter.NumericNeedleIsExact | src/window.rs:449-462 | a needle that parses as an `i32` shows exactly the rows whose Number reads as that string |
| Filter.NumberPrefixDoesNotMatch | src/window.rs:452-455 | the needle "12" does not show the card numbered "123" |
| Filter.TokenOrderIrrelevant | src/window.rs:456-460 | two non-numeric needles with the same tokens show the same rows |
| Filter.BlankNeedleShowsReadable | src/window.rs:449-462 | a blank needle shows exactly the rows whose People or Signature field reads |
| Filter.UnreadableNeverShown | src/window.rs:449-462 | a row none of whose Number, People or Signature fields reads is never shown |
| Filter.Positions | src/window.rs:399-401 | the view lists the shown rows in strictly increasing store order and leaves none out |
| Filter.VisibleRows | src/window.rs:399-401 | the view holds row k exactly when row k passes the predicate, in strictly increasing store order |
| Filter.PositionsRank | src/window.rs:525-532 | the i-th row in the view has exactly i shown rows before it |
| Filter.PositionsRankUnique | src/window.rs:525-532 | at most one store row is the i-th shown one |
| Window.NewDocument | src/window.rs:91-96 | a window starts with no rows, an empty needle and a clean document |
| Window.ParseIgnoresCase | src/window.rs:349 | lower-casing the search text never changes whether or to what it parses as an `i32` |
| Window.IsDirty | src/window.rs:342-344 | the query answers the flag the document holds |
| Window.SetDirty | src/window.rs:335-344 | after setting the flag, the dirty query returns it; store and needle are unchanged |
| Window.Search | src/window.rs:346-354 | a search changes only the needle, and the needle it stores is already lower-cased |
| Window.SearchShowsMatches | src/window.rs:346-354 | after a search the view holds exactly the rows that pass the lower-cased text; lower-casing never changes whether the text is a number |
| Window.SearchIgnoresCase | src/window.rs:346-354 | searching for a whitespace-free piece of a row's People field that does not parse as an `i32`, typed in any case, shows that row |
| Window.SmithExample | src/window.rs:478-490 | both "smith" and "SMITH" find the card of "Smith John, Robert" |
| Window.View | src/window.rs:352-353 | the window shows row k exactly when it passes the current needle, in store order |
| Window.ConvertPath | src/window.rs:525-532 | a view path converts to the store path of the row shown at that position, and that row is the only one with that many shown rows before it |
| Window.UpdateColumn | src/window.rs:534-548 | an edit that changes a readable cell writes exactly that cell of the store row that `ConvertPath` gives for the path and marks the document dirty; otherwise the document is unchanged |
| Window.NextNumberUnique | src/window.rs:565-583 | the next membership number of a store is unique |
| Window.NextNumberStep | src/window.rs:571-582 | one step of the scan keeps the number at max(1, 1 + the largest parsable Number seen so far), never exceeding `i32::MAX` |
| Window.NextNumber | src/window.rs:565-583 | the scan ends with max(1, 1 + the largest parsable Number), which is 1 when there is none or all are below 1 |
| Window.NextNumberExample | src/window.rs:565-583 | Numbers "1", "3" and "x" give the next number 4 |
| Window.InsertAction | src/window.rs:562-604 | insertion appends one row holding the date, the next number as text and empty other fields; earlier rows, needle and dirty flag are unchanged |
| Window.InsertedNumberFollows | src/window.rs:562-604 | after an insert, the next number is one more than the number just inserted |
| Persistence.LoadedRows | src/window.rs:376-392 | every loaded row has all six fields readable |
| Persistence.LoadData | src/window.rs:356-394 | each record read becomes one row, in order, padded with empty fields; failed records are skipped; the needle is empty and the document clean |
| Persistence.SavedRecords | src/window.rs:425-442 | every saved record has three to SIZE fields and a non-empty People field |
| Persistence.BuildRecord | src/window.rs:428-435 | the record holds the row's leading fields that read, up to the first failed read |
| Persistence.PrefixIsReadable | src/window.rs:428-435 | any run of reading fields that is ended by the last column or a failed read is the readable prefix |
| Persistence.SavedRecordsStep | src/window.rs:437-441 | each row adds its record to the output exactly when its People field is not empty |
| Persistence.SaveData | src/window.rs:414-447 | the output is the record of every row with a non-empty People field, in store order; the store is unchanged and the document clean |
| Persistence.NonBlankRows | src/window.rs:437-439 | no row kept has an empty People field |
| Persistence.SaveThenLoad | src/window.rs:356-447 | saving a store whose cells all read and loading the file gives back its non-blank rows, in order |
| Persistence.SaveIgnoresBlank | src/window.rs:437-439 | dropping the blank rows first does not change what a save writes |
| Persistence.LoadSaveLoad | src/window.rs:356-447 | loading a file, saving it and loading the result gives the loaded rows with a non-empty People field, in order |
| Persistence.SaveIsStable | src/window.rs:356-447 | saving a store whose cells all read, as every loaded store's do, then reloading the output and saving again writes the same records |

## Left out

- The GTK user interface is not modelled. This covers widgets, dialogs, the search bar and
  menu actions, recent files, `update_title`, scrolling and cursor placement after an
  insert, and `discard_changes_okay`.
- File I/O is left out. The CSV reader is a sequence of items, each the fields of a record
  or a record the reader failed on. The writer's output is a sequence of records.
- CSV tokenisation and quoting are left out, and so are the csv crate's own rules. One of
  those rules rejects records whose length differs from the first record's.
- Persistence.SaveData: the output may hold records of different lengths. The program's csv
  writer would reject the first record whose length differs from the first one written, and
  the `expect` would panic; the model does not promise that panic.
- The `expect`s on opening, writing and flushing the file are not modelled.
- The clock is a parameter: `InsertAction` takes the date text that `strftime("%d/%m/%y")`
  would produce. When formatting fails the program stores an empty date. That case is
  covered, because `""` is one of the dates the parameter can take.
- GTK's live `TreeModelFilter` is not modelled as stored state. The view is derived from
  the store and the needle each time, and GTK re-evaluates the visible function whenever
  the store changes.
- Text.Lower: lower-cases ASCII letters only. Rust's `to_lowercase` also folds the rest of
  Unicode, and some of its mappings change a string's length.
- Panics are modelled as preconditions, so the panic paths themselves are not modelled:
  - `Columns.FromU8` requires an index below SIZE.
  - `Window.ConvertPath` and `Window.UpdateColumn` require a path of one index inside the
    view (`ValidViewPath`). This stands for the `unwrap`s on the converted path and on the
    store lookup at `window.rs` lines 531 and 537.
  - `Persistence.LoadData` requires no record of more than SIZE fields.
  - `Persistence.SaveData` requires a non-empty store, and at least three readable leading
    fields in every row.
  - `Window.NextNumber` and `Window.InsertAction` require that no Number equals
    `i32::MAX`, because `value + 1` overflows.
- Window.NextNumber: release-mode wrap-around of `value + 1` is not modelled. The store
  must not contain `i32::MAX`.
- `application.rs`, `simpleaction.rs`, `simpleactionstateful.rs` and `lib.rs` are not part
  of this model. They hold application start-up, action wrappers and module wiring.
- `main.rs`, `main.py` and `tesserama.py` are not part of this model. They are earlier
  single-file implementations of the same program, in Rust and Python.

=== FILE: columns.dfy ===
/**
  The six fields of a membership record and their positional index, with the integer
  conversions the list store and the window use to address a column.
 */
module Columns {
  import opened Ints

  datatype Column = Date | Number | People | Signature | Flags | ID

  /** Number of fields in a record. */
  const SIZE: nat := 6

  /** The `as u8` cast: keeps the low eight bits (two's complement for negatives). */
  function AsU8(n: int): (b: u8)
    ensures (b - n) % 0x100 == 0
  {
    n % 0x100
  }

  /** Column to its positional index. */
  function ToU8(c: Column): (n: u8)
    ensures n < SIZE
  {
    match c
    case Date => 0
    case Number => 1
    case People => 2
    case Signature => 3
    case Flags => 4
    case ID => 5
  }

  /** Index to column; every index from SIZE upwards is a panic, excluded here. */
  function FromU8(n: u8): (c: Column)
    requires n < SIZE
    ensures ToU8(c) == n
  {
    match n
    case 0 => Date
    case 1 => Number
    case 2 => People
    case 3 => Signature
    case 4 => Flags
    case _ => ID
  }

  function ToU32(c: Column): (n: u32)
    ensures n == ToU8(c)
  {
    ToU8(c) as u32
  }

  function ToI32(c: Column): (n: i32)
    ensures n == ToU8(c)
  {
    ToU8(c) as i32
  }

  function ToUsize(c: Column): (n: usize)
    ensures n == ToU8(c)
  {
    ToU8(c) as usize
  }

  /** The wider conversions truncate to `u8` first and then convert from `u8`. */
  function FromU32(n: u32): (c: Column)
    requires AsU8(n) < SIZE
    ensures ToU8(c) == n % 0x100
  {
    FromU8(AsU8(n))
  }

  function FromI32(n: i32): (c: Column)
    requires AsU8(n) < SIZE
    ensures ToU8(c) == n % 0x100
  {
    FromU8(AsU8(n))
  }

  function FromUsize(n: usize): (c: Column)
    requires AsU8(n) < SIZE
    ensures ToU8(c) == n % 0x100
  {
    FromU8(AsU8(n))
  }

  /** Going through the index and back gives the same column. */
  lemma FromU8ToU8(c: Column)
    ensures FromU8(ToU8(c)) == c
  {
  }

  /**
    The wider indices of a column all equal its `u8` index, and a column survives the round
    trip through each of the wider index types.
   */
  lemma WideRoundTrip(c: Column)
    ensures ToU32(c) == ToU8(c) && ToI32(c) == ToU8(c) && ToUsize(c) == ToU8(c)
    ensures AsU8(ToU32(c)) < SIZE && FromU32(ToU32(c)) == c
    ensures AsU8(ToI32(c)) < SIZE && FromI32(ToI32(c)) == c
    ensures AsU8(ToUsize(c)) < SIZE && FromUsize(ToUsize(c)) == c
  {
    FromU8ToU8(c);
  }

  /** Distinct columns have distinct indices. */
  lemma ToU8Injective(c1: Column, c2: Column)
    ensures ToU8(c1) == ToU8(c2) ==> c1 == c2
  {
  }

  /** Every index below SIZE names a column. */
  lemma ToU8Onto(n: u8)
    requires n < SIZE
    ensures exists c :: ToU8(c) == n
  {
    assert ToU8(FromU8(n)) == n;
  }

  /**
    The truncating casts wrap: 256 names Date like 0 does, while -1 and 6 name no column
    and would panic.
   */
  lemma TruncationExamples()
    ensures AsU8(256) < SIZE && FromU32(256) == Date && FromUsize(256) == Date
    ensures AsU8(-1) == 255 && AsU8(6) == 6
    ensures AsU8(-255) < SIZE && FromI32(-255) == Number
  {
  }

}

=== FILE: filter.dfy ===
/**
  The search predicate that decides whether a row is shown, and the filtered view: the
  store positions of the rows that pass it, in store order.
 */
module Filter {
  import opened Wrappers
  import opened Ints
  import opened Text
  import opened Columns
  import opened ListStore

  /** The lower-cased field holds every whitespace-separated token of the needle. */
  predicate HasAllTokens(field: string, needle: string) {
    forall k :: 0 <= k < |Words(needle)| ==> Contains(Lower(field), Words(needle)[k])
  }

  /** `value_matches`: the field reads and is string-equal to the needle. */
  function ValueMatches(s: Store, it: TreeIter, column: Column, needle: string): (b: bool)
    requires ValidIter(s, it)
    ensures b <==> Value(s, it, column) == Some(needle)
  {
    match Value(s, it, column)
    case None => false
    case Some(value) => value == needle
  }

  /** `value_contains`: the field reads and, lower-cased, contains each needle token. */
  function ValueContains(s: Store, it: TreeIter, column: Column, needle: string): (b: bool)
    requires ValidIter(s, it)
    ensures b <==> Value(s, it, column).Some? && HasAllTokens(Value(s, it, column).value, needle)
  {
    match Value(s, it, column)
    case None => false
    case Some(value) => AllContained(Words(needle), Lower(value))
  }

  /**
    `filter_func`: a needle that parses as an `i32` looks up a membership number;
    any other needle is a name search over People and Signature.
   */
  function FilterFunc(s: Store, it: TreeIter, needle: string): (b: bool)
    requires ValidIter(s, it)
    ensures ParseI32(needle).Some? ==> (b <==> Value(s, it, Number) == Some(needle))
    ensures ParseI32(needle).None? ==>
              (b <==> || (Value(s, it, People).Some? && HasAllTokens(Value(s, it, People).value, needle))
                      || (Value(s, it, Signature).Some? && HasAllTokens(Value(s, it, Signature).value, needle)))
  {
    if ParseI32(needle).Some? then ValueMatches(s, it, Number, needle)
    else ValueContains(s, it, People, needle) || ValueContains(s, it, Signature, needle)
  }

  /** A numeric needle shows a row exactly when its Number reads as that very string. */
  lemma NumericNeedleIsExact(s: Store, it: TreeIter, needle: string)
    requires ValidIter(s, it)
    requires ParseI32(needle).Some?
    ensures FilterFunc(s, it, needle) <==> Value(s, it, Number) == Some(needle)
  {
  }

  /** "12" is a number lookup, so it does not show the card numbered "123". */
  lemma NumberPrefixDoesNotMatch(s: Store, it: TreeIter)
    requires ValidIter(s, it)
    requires Value(s, it, Number) == Some("123")
    ensures !FilterFunc(s, it, "12")
  {
    assert ParseI32("12").Some? by {
      assert AllDigits("12");
      assert DigitsValue("12") == 12 by {
        assert "12"[..1] == "1";
        assert DigitsValue("1") == 1 by {
          assert "1"[..0] == "";
        }
      }
    }
  }

  /**
    A needle that is not a number shows a row exactly when its People or its Signature
    field reads and, lower-cased, contains every token of the needle, in any order:
    needles with the same tokens show the same rows.
   */
  lemma TokenOrderIrrelevant(s: Store, it: TreeIter, needle1: string, needle2: string)
    requires ValidIter(s, it)
    requires ParseI32(needle1).None? && ParseI32(needle2).None?
    requires forall t :: t in Words(needle1) <==> t in Words(needle2)
    ensures FilterFunc(s, it, needle1) == FilterFunc(s, it, needle2)
  {
    forall field: string
      ensures HasAllTokens(field, needle1) <==> HasAllTokens(field, needle2)
    {
      TokensAsSet(field, needle1);
      TokensAsSet(field, needle2);
    }
  }

  lemma TokensAsSet(field: string, needle: string)
    ensures HasAllTokens(field, needle) <==> forall t :: t in Words(needle) ==> Contains(Lower(field), t)
  {
  }

  /**
    An empty or all-whitespace needle has no tokens and is not a number, so it shows
    every row whose People or Signature field reads.
   */
  lemma BlankNeedleShowsReadable(s: Store, it: TreeIter, needle: string)
    requires ValidIter(s, it)
    requires AllWhitespace(needle)
    ensures FilterFunc(s, it, needle) <==> Value(s, it, People).Some? || Value(s, it, Signature).Some?
  {
    WordsEmptyIffBlank(needle);
    if ParseI32(needle).Some? {
      ParsedIsInteger(needle);
    }
  }

  /**
    The name search ignores case: any whitespace-free piece of a People field, lower-cased,
    is a needle that shows the row, whatever the case of the field's letters.
   */
  lemma CaseInsensitiveWord(s: Store, it: TreeIter, field: string, i: nat, j: nat)
    requires ValidIter(s, it)
    requires Value(s, it, People) == Some(field)
    requires i < j <= |field| && NoWhitespace(field[i..j])
    requires ParseI32(Lower(field[i..j])).None?
    ensures FilterFunc(s, it, Lower(field[i..j]))
  {
    var w := Lower(field[i..j]);
    LowerKeepsSolid(field[i..j]);
    WordsOfSolid(w);
    LowerSlice(field, i, j);
    assert OccursAt(Lower(field), w, i);
    assert HasAllTokens(field, w);
  }

  /** A row none of whose searched fields reads is never shown, whatever the needle. */
  lemma UnreadableNeverShown(s: Store, it: TreeIter, needle: string)
    requires ValidIter(s, it)
    requires Value(s, it, Number).None? && Value(s, it, People).None? && Value(s, it, Signature).None?
    ensures !FilterFunc(s, it, needle)
  {
  }

  /** The verdict of the predicate on every row of the store, in store order. */
  function Shown(s: Store, needle: string): (shown: seq<bool>)
    ensures |shown| == |s|
    ensures forall k :: 0 <= k < |s| ==> shown[k] == FilterFunc(s, TreeIter(k), needle)
  {
    seq(|s|, k requires 0 <= k < |s| => FilterFunc(s, TreeIter(k), needle))
  }

  /**
    The positions among the first `n` verdicts that are true: strictly increasing, each
    one shown, none shown left out.
   */
  function Positions(shown: seq<bool>, n: nat): (v: seq<nat>)
    requires n <= |shown|
    ensures forall i :: 0 <= i < |v| ==> v[i] < n && shown[v[i]]
    ensures forall i, j :: 0 <= i < j < |v| ==> v[i] < v[j]
    ensures forall k :: 0 <= k < n && shown[k] ==> k in v
  {
    if n == 0 then []
    else
      var before := Positions(shown, n - 1);
      if shown[n - 1] then before + [n - 1] else before
  }

  /** The filtered view: the store positions of the rows that pass the predicate. */
  function VisibleRows(s: Store, needle: string): (v: seq<nat>)
    ensures forall k :: 0 <= k < |s| ==> (k in v <==> FilterFunc(s, TreeIter(k), needle))
    ensures forall i :: 0 <= i < |v| ==> v[i] < |s|
    ensures forall i, j :: 0 <= i < j < |v| ==> v[i] < v[j]
  {
    Positions(Shown(s, needle), |s|)
  }

  /** The i-th shown position has exactly i shown positions before it. */
  lemma {:induction false} PositionsRank(shown: seq<bool>, n: nat, i: nat)
    requires n <= |shown|
    requires i < |Positions(shown, n)|
    ensures Positions(shown, n)[i] < n
    ensures Positions(shown, Positions(shown, n)[i]) == Positions(shown, n)[..i]
    decreases n
  {
    var v := Positions(shown, n);
    var before := Positions(shown, n - 1);
    if i < |before| {
      assert v[i] == before[i];
      PositionsRank(shown, n - 1, i);
      assert v[..i] == before[..i];
    } else {
      assert v == before + [n - 1];
      assert v[..i] == before;
    }
  }

  /** Past a shown position, the count of shown positions has grown. */
  lemma {:induction false} PositionsGrow(shown: seq<bool>, k1: nat, k2: nat)
    requires k1 < k2 <= |shown|
    requires shown[k1]
    ensures |Positions(shown, k2)| > |Positions(shown, k1)|
    decreases k2
  {
    if k2 - 1 > k1 {
      PositionsGrow(shown, k1, k2 - 1);
    } else {
      assert Positions(shown, k2) == Positions(shown, k1) + [k1];
    }
  }

  /** At most one position is the i-th shown one. */
  lemma PositionsRankUnique(shown: seq<bool>, i: nat, k1: nat, k2: nat)
    requires k1 < |shown| && k2 < |shown| && shown[k1] && shown[k2]
    requires |Positions(shown, k1)| == i && |Positions(shown, k2)| == i
    ensures k1 == k2
  {
    if k1 < k2 {
      PositionsGrow(shown, k1, k2);
    } else if k2 < k1 {
      PositionsGrow(shown, k2, k1);
    }
  }

}

=== FILE: ints.dfy ===
/**
  The machine integer types the program converts between, as ranges of mathematical
  integers.
 */
module Ints {

  const I32_MIN: int := -0x8000_0000
  const I32_MAX: int := 0x7fff_ffff

  type u8 = n: int | 0 <= n < 0x100
  type u32 = n: int | 0 <= n < 0x1_0000_0000
  type i32 = n: int | I32_MIN <= n <= I32_MAX
  type usize = n: int | 0 <= n < 0x1_0000_0000_0000_0000

}

=== FILE: liststore.dfy ===
/**
  The record store: an ordered list of rows with SIZE string columns. A row handle is
  its position (rows are never removed or reordered); a path is the index list of the
  row, one index deep for a flat list.
 */
module ListStore {
  import opened Wrappers
  import opened Ints
  import opened Columns

  /** One cell; None is a cell whose string read fails (a freshly appended row is all None). */
  type Cell = Option<string>

  type Row = r: seq<Cell> | |r| == SIZE witness [None, None, None, None, None, None]

  type Store = seq<Row>

  datatype TreeIter = TreeIter(index: nat)

  datatype TreePath = TreePath(indices: seq<int>)

  predicate ValidIter(s: Store, it: TreeIter) {
    it.index < |s|
  }

  /** A store with SIZE string columns and no rows. */
  function NewStore(): (s: Store)
    ensures |s| == 0
  {
    []
  }

  /** The blank record the window fills in before storing it. */
  function NewRow(): (values: seq<string>)
    ensures |values| == SIZE
    ensures forall j :: 0 <= j < |values| ==> values[j] == ""
  {
    ["", "", "", "", "", ""]
  }

  /** Adds an unset row at the end and returns its handle. */
  function Append(s: Store): (r: (Store, TreeIter))
    ensures |r.0| == |s| + 1 && r.0[..|s|] == s
    ensures r.1.index == |s| && ValidIter(r.0, r.1)
    ensures forall c :: Value(r.0, r.1, c).None?
  {
    var unset: Row := [None, None, None, None, None, None];
    (s + [unset], TreeIter(|s|))
  }

  /** Reads one cell: the string, or None when the read fails. */
  function Value(s: Store, it: TreeIter, column: Column): (v: Option<string>)
    requires ValidIter(s, it)
    ensures v == s[it.index][ToU8(column)]
  {
    s[it.index][ToI32(column)]
  }

  /** Writes one cell. */
  function SetValue(s: Store, it: TreeIter, column: Column, value: string): (r: Store)
    requires ValidIter(s, it)
    ensures |r| == |s|
    ensures Value(r, it, column) == Some(value)
    ensures forall j, c :: 0 <= j < |s| && (j != it.index || c != column) ==>
              Value(r, TreeIter(j), c) == Value(s, TreeIter(j), c)
  {
    var row := s[it.index][ToU32(column) := Some(value)];
    s[it.index := row]
  }

  /** Writes fields 0..5 of the row from the first SIZE values, in column order. */
  function SetAllValues(s: Store, it: TreeIter, values: seq<string>): (r: Store)
    requires ValidIter(s, it)
    requires |values| >= SIZE
    ensures |r| == |s|
    ensures forall c :: Value(r, it, c) == Some(values[ToU8(c)])
    ensures forall j, c :: 0 <= j < |s| && j != it.index ==>
              Value(r, TreeIter(j), c) == Value(s, TreeIter(j), c)
  {
    var row: Row := [Some(values[0]), Some(values[1]), Some(values[2]),
                     Some(values[3]), Some(values[4]), Some(values[5])];
    s[it.index := row]
  }

  /** The path of a row; converting it back with `Iter` gives the same handle. */
  function Path(s: Store, it: TreeIter): (r: Option<TreePath>)
    requires ValidIter(s, it)
    ensures r.Some? && |r.value.indices| == 1 && Iter(s, r.value) == Some(it)
  {
    Some(TreePath([it.index]))
  }

  /** The row at a path; None for a path that names no row of the store. */
  function Iter(s: Store, path: TreePath): (r: Option<TreeIter>)
    ensures r.Some? <==> |path.indices| == 1 && 0 <= path.indices[0] < |s|
    ensures r.Some? ==> ValidIter(s, r.value) && r.value.index == path.indices[0]
  {
    if |path.indices| == 1 && 0 <= path.indices[0] < |s| then Some(TreeIter(path.indices[0]))
    else None
  }

  /** Handles and paths convert into each other, both ways. */
  lemma PathIterInverse(s: Store, it: TreeIter, path: TreePath)
    ensures ValidIter(s, it) ==> Path(s, it).Some? && Iter(s, Path(s, it).value) == Some(it)
    ensures Iter(s, path).Some? ==> ValidIter(s, Iter(s, path).value)
    ensures Iter(s, path) == Some(it) ==> Path(s, it) == Some(path)
  {
    if Iter(s, path) == Some(it) {
      assert path.indices == [it.index];
    }
  }

  function IterFirst(s: Store): (r: Option<TreeIter>)
    ensures r.Some? <==> |s| > 0
    ensures r.Some? ==> ValidIter(s, r.value)
  {
    if |s| == 0 then None else Some(TreeIter(0))
  }

  /** The next row, or None (`false`) after the last one. */
  function IterNext(s: Store, it: TreeIter): (r: Option<TreeIter>)
    requires ValidIter(s, it)
    ensures r.Some? ==> ValidIter(s, r.value) && r.value.index > it.index
  {
    if it.index + 1 < |s| then Some(TreeIter(it.index + 1)) else None
  }

  /** The handles a first/next walk starting at `it` produces. */
  function WalkFrom(s: Store, it: TreeIter): seq<TreeIter>
    requires ValidIter(s, it)
    decreases |s| - it.index
  {
    [it] + match IterNext(s, it)
           case None => []
           case Some(next) => WalkFrom(s, next)
  }

  function Walk(s: Store): seq<TreeIter> {
    match IterFirst(s)
    case None => []
    case Some(first) => WalkFrom(s, first)
  }

  /** A first/next walk visits every row exactly once, in store order, then stops. */
  lemma WalkVisitsInOrder(s: Store)
    ensures |Walk(s)| == |s|
    ensures forall k :: 0 <= k < |s| ==> Walk(s)[k] == TreeIter(k)
  {
    if |s| > 0 {
      WalkFromSuffix(s, TreeIter(0));
    }
  }

  lemma {:induction false} WalkFromSuffix(s: Store, it: TreeIter)
    requires ValidIter(s, it)
    ensures |WalkFrom(s, it)| == |s| - it.index
    ensures forall k :: 0 <= k < |s| - it.index ==> WalkFrom(s, it)[k] == TreeIter(it.index + k)
    decreases |s| - it.index
  {
    if it.index + 1 < |s| {
      WalkFromSuffix(s, TreeIter(it.index + 1));
    }
  }

  /** Reading a cell after a write sees the written text there and the old value elsewhere. */
  lemma ValueAfterSetValue(s: Store, it: TreeIter, column: Column, value: string,
                           other: TreeIter, c: Column)
    requires ValidIter(s, it) && ValidIter(s, other)
    ensures Value(SetValue(s, it, column, value), other, c) ==
            if other == it && c == column then Some(value) else Value(s, other, c)
  {
  }

}

=== FILE: persistence.dfy ===
/**
  Loading a document from the records of a CSV file and saving it back: short records
  are padded with empty fields on load, and rows with an empty People field are dropped
  on save.
 */
module Persistence {
  import opened Wrappers
  import opened Ints
  import opened Columns
  import opened ListStore
  import opened Window

  /** One item of the CSV reader: the fields of a record, or a record it failed to read. */
  datatype CsvRecord = Parsed(fields: seq<string>) | Malformed

  /** Every record that was read has at most SIZE fields; a longer one makes the loader panic. */
  predicate Loadable(input: seq<CsvRecord>) {
    forall k :: 0 <= k < |input| && input[k].Parsed? ==> |input[k].fields| <= SIZE
  }

  predicate FullyReadable(row: Row) {
    forall j :: 0 <= j < SIZE ==> row[j].Some?
  }

  /** The row a record loads into: its fields in order, then empty strings up to SIZE. */
  function PaddedRow(fields: seq<string>): (row: Row)
    requires |fields| <= SIZE
  {
    seq(SIZE, j requires 0 <= j < SIZE => Some(if j < |fields| then fields[j] else ""))
  }

  /** The rows a load produces: one padded row per record read, in input order. */
  function LoadedRows(input: seq<CsvRecord>): (rows: Store)
    requires Loadable(input)
    ensures |rows| <= |input|
    ensures forall k :: 0 <= k < |rows| ==> FullyReadable(rows[k])
  {
    if |input| == 0 then []
    else
      var before := LoadedRows(input[..|input| - 1]);
      match input[|input| - 1]
      case Parsed(fields) => before + [PaddedRow(fields)]
      case Malformed => before
  }

  /**
    `load_data`: replaces the document with the records of the file. Each record read
    becomes one row, in input order, its missing trailing fields empty; records the
    reader failed on are skipped. The needle is cleared and the document is clean.
   */
  method LoadData(input: seq<CsvRecord>) returns (d: Document)
    requires Loadable(input)
    ensures d.store == LoadedRows(input)
    ensures d.needle == "" && !IsDirty(d)
  {
    var data := NewStore();
    var k := 0;
    while k < |input|
      invariant 0 <= k <= |input|
      invariant data == LoadedRows(input[..k])
    {
      assert input[..k + 1][..k] == input[..k];
      match input[k] {
        case Parsed(fields) =>
          var values := NewRow();
          var i := 0;
          while i < |fields|
            invariant 0 <= i <= |fields|
            invariant |values| == SIZE
            invariant forall j :: 0 <= j < i ==> values[j] == fields[j]
            invariant forall j :: i <= j < SIZE ==> values[j] == ""
          {
            values := values[i := fields[i]];
            i := i + 1;
          }
          var (appended, it) := Append(data);
          var stored := SetAllValues(appended, it, values);
          assert stored == data + [PaddedRow(fields)] by {
            assert stored[..|data|] == data by {
              forall j | 0 <= j < |data|
                ensures stored[j] == data[j]
              {
                SameCells(stored, appended, j);
              }
            }
            SameRow(stored[|data|], PaddedRow(fields));
          }
          data := stored;
        case Malformed =>
      }
      k := k + 1;
    }
    assert input[..|input|] == input;
    d := SetDirty(Document(data, "", false), false);
  }

  /** Two rows that agree on every column are the same row. */
  lemma SameRow(a: Row, b: Row)
    requires forall c :: a[ToU8(c)] == b[ToU8(c)]
    ensures a == b
  {
    assert a[0] == b[ToU8(Date)] && a[1] == b[ToU8(Number)] && a[2] == b[ToU8(People)];
    assert a[3] == b[ToU8(Signature)] && a[4] == b[ToU8(Flags)] && a[5] == b[ToU8(ID)];
  }

  lemma SameCells(s: Store, t: Store, j: nat)
    requires j < |s| && j < |t|
    requires forall c :: Value(s, TreeIter(j), c) == Value(t, TreeIter(j), c)
    ensures s[j] == t[j]
  {
    forall c ensures s[j][ToU8(c)] == t[j][ToU8(c)] {
      assert Value(s, TreeIter(j), c) == Value(t, TreeIter(j), c);
    }
    SameRow(s[j], t[j]);
  }

  /* ---------------------------------------------------------------------- */
  /* Saving                                                                  */
  /* ---------------------------------------------------------------------- */

  /** The fields from column `j` on that read, stopping at the first failed read. */
  function ReadableFrom(row: Row, j: nat): (r: seq<string>)
    requires j <= SIZE
    ensures |r| <= SIZE - j
    ensures forall i :: 0 <= i < |r| ==> row[j + i] == Some(r[i])
    ensures j + |r| < SIZE ==> row[j + |r|].None?
    decreases SIZE - j
  {
    if j == SIZE || row[j].None? then [] else [row[j].value] + ReadableFrom(row, j + 1)
  }

  /** The record the saver builds from a row: its leading readable fields. */
  function ReadablePrefix(row: Row): seq<string> {
    ReadableFrom(row, 0)
  }

  /** The saver indexes People in every record it builds, so at least three fields must read. */
  predicate Savable(s: Store) {
    forall k :: 0 <= k < |s| ==> |ReadablePrefix(s[k])| > ToUsize(People)
  }

  /**
    The records a save writes: the record of every row whose People field is not empty,
    in store order.
   */
  function SavedRecords(s: Store): (records: seq<seq<string>>)
    requires Savable(s)
    ensures |records| <= |s|
    ensures forall k :: 0 <= k < |records| ==>
              ToUsize(People) < |records[k]| <= SIZE && records[k][ToUsize(People)] != ""
  {
    if |s| == 0 then []
    else
      var before := SavedRecords(s[..|s| - 1]);
      var record := ReadablePrefix(s[|s| - 1]);
      if record[ToUsize(People)] != "" then before + [record] else before
  }

  /**
    `save_data`: walks the rows from the first, builds each record from the fields that
    read, in column order, and writes it unless its People field is empty. The store and
    needle are untouched and the document is clean afterwards.
   */
  method SaveData(d: Document) returns (saved: Document, output: seq<seq<string>>)
    requires |d.store| > 0
    requires Savable(d.store)
    ensures output == SavedRecords(d.store)
    ensures saved.store == d.store && saved.needle == d.needle && !IsDirty(saved)
  {
    var data := d.store;
    var it := IterFirst(data).value;
    SavedRecordsStep(data, 0);
    output := [];
    while true
      invariant ValidIter(data, it) && Savable(data[..it.index])
      invariant output == SavedRecords(data[..it.index])
      decreases |data| - it.index
    {
      var record := BuildRecord(data, it);
      SavedRecordsStep(data, it.index);
      if record[ToUsize(People)] != "" {
        output := output + [record];
      }
      var next := IterNext(data, it);
      if next.None? {
        assert data[..it.index + 1] == data;
        break;
      }
      it := next.value;
    }
    saved := SetDirty(d, false);
  }

  /** Extending the saved rows by one row appends at most that row's record. */
  lemma SavedRecordsStep(s: Store, i: nat)
    requires i < |s| && Savable(s)
    ensures Savable(s[..i]) && Savable(s[..i + 1])
    ensures var record := ReadablePrefix(s[i]);
            SavedRecords(s[..i + 1]) ==
              SavedRecords(s[..i]) + if record[ToUsize(People)] != "" then [record] else []
  {
    assert s[..i + 1][..i] == s[..i];
  }

  /** The field loop of `save_data`: reads columns in order and stops at the first failed read. */
  method BuildRecord(data: Store, it: TreeIter) returns (record: seq<string>)
    requires ValidIter(data, it)
    ensures record == ReadablePrefix(data[it.index])
  {
    record := [];
    var x := 0;
    while x < SIZE
      invariant 0 <= x <= SIZE && |record| == x
      invariant forall j :: 0 <= j < x ==> data[it.index][j] == Some(record[j])
    {
      var value := Value(data, it, FromUsize(x));
      match value {
        case Some(field) =>
          record := record + [field];
        case None =>
          break;
      }
      x := x + 1;
    }
    PrefixIsReadable(data[it.index], record);
  }

  /** A run of leading fields that read, ended by the last column or a failed read, is the readable prefix. */
  lemma PrefixIsReadable(row: Row, record: seq<string>)
    requires |record| <= SIZE
    requires forall j :: 0 <= j < |record| ==> row[j] == Some(record[j])
    requires |record| < SIZE ==> row[|record|].None?
    ensures record == ReadablePrefix(row)
  {
    var p := ReadablePrefix(row);
    ReadableCovers(row, 0, |record|);
    assert |p| <= |record|;
  }

  /** Fields j..m-1 all read, so the readable run from j reaches at least m. */
  lemma {:induction false} ReadableCovers(row: Row, j: nat, m: nat)
    requires j <= m <= SIZE
    requires forall i :: j <= i < m ==> row[i].Some?
    ensures |ReadableFrom(row, j)| >= m - j
    decreases m - j
  {
    if j < m {
      ReadableCovers(row, j + 1, m);
    }
  }

  /* ---------------------------------------------------------------------- */
  /* Round trip                                                              */
  /* ---------------------------------------------------------------------- */

  predicate IsBlank(row: Row) {
    row[ToU8(People)] == Some("")
  }

  /** The rows whose People field is not empty, in store order. */
  function NonBlankRows(s: Store): (r: Store)
    ensures |r| <= |s|
    ensures forall k :: 0 <= k < |r| ==> !IsBlank(r[k])
  {
    if |s| == 0 then []
    else
      var before := NonBlankRows(s[..|s| - 1]);
      if IsBlank(s[|s| - 1]) then before else before + [s[|s| - 1]]
  }

  /** Records written by a save, fed back to the loader as records that read. */
  function AsInput(records: seq<seq<string>>): (input: seq<CsvRecord>)
    ensures |input| == |records|
  {
    seq(|records|, k requires 0 <= k < |records| => Parsed(records[k]))
  }

  /** Saving a store whose cells all read, then loading the file, gives back its non-blank rows. */
  lemma {:induction false} SaveThenLoad(s: Store)
    requires forall k :: 0 <= k < |s| ==> FullyReadable(s[k])
    ensures Savable(s)
    ensures Loadable(AsInput(SavedRecords(s)))
    ensures LoadedRows(AsInput(SavedRecords(s))) == NonBlankRows(s)
    decreases |s|
  {
    forall k | 0 <= k < |s|
      ensures |ReadablePrefix(s[k])| == SIZE
    {
      FullPrefix(s[k]);
    }
    if |s| > 0 {
      var init := s[..|s| - 1];
      var last := s[|s| - 1];
      SaveThenLoad(init);
      FullPrefix(last);
      BlankIffEmptyPeople(last);
      var before := SavedRecords(init);
      var record := ReadablePrefix(last);
      if record[ToUsize(People)] != "" {
        assert SavedRecords(s) == before + [record];
        LoadAppended(before, record);
      } else {
        assert SavedRecords(s) == before;
      }
    }
  }

  /** Loading one more record that reads adds its padded row at the end. */
  lemma LoadAppended(records: seq<seq<string>>, record: seq<string>)
    requires Loadable(AsInput(records)) && |record| <= SIZE
    ensures Loadable(AsInput(records + [record]))
    ensures LoadedRows(AsInput(records + [record])) == LoadedRows(AsInput(records)) + [PaddedRow(record)]
  {
    var input := AsInput(records + [record]);
    assert input[..|input| - 1] == AsInput(records);
  }

  function RowFields(row: Row): seq<string>
    requires FullyReadable(row)
  {
    seq(SIZE, j requires 0 <= j < SIZE => row[j].value)
  }

  lemma FullPrefix(row: Row)
    requires FullyReadable(row)
    ensures ReadablePrefix(row) == RowFields(row)
    ensures PaddedRow(RowFields(row)) == row
  {
    PrefixIsReadable(row, RowFields(row));
  }

  /** Loading a file, saving it and loading the result gives the loaded rows whose People field is not empty. */
  lemma LoadSaveLoad(input: seq<CsvRecord>)
    requires Loadable(input)
    ensures Savable(LoadedRows(input))
    ensures Loadable(AsInput(SavedRecords(LoadedRows(input))))
    ensures LoadedRows(AsInput(SavedRecords(LoadedRows(input)))) == NonBlankRows(LoadedRows(input))
  {
    SaveThenLoad(LoadedRows(input));
  }

  /** Saving a store whose cells all read, reloading the output and saving again writes the same records. */
  lemma SaveIsStable(s: Store)
    requires forall k :: 0 <= k < |s| ==> FullyReadable(s[k])
    ensures Savable(s) && Loadable(AsInput(SavedRecords(s)))
    ensures Savable(LoadedRows(AsInput(SavedRecords(s))))
    ensures SavedRecords(LoadedRows(AsInput(SavedRecords(s)))) == SavedRecords(s)
  {
    SaveThenLoad(s);
    SaveIgnoresBlank(s);
  }

  /** Dropping the blank rows first does not change what a save writes. */
  lemma {:induction false} SaveIgnoresBlank(s: Store)
    requires Savable(s)
    ensures Savable(NonBlankRows(s))
    ensures SavedRecords(NonBlankRows(s)) == SavedRecords(s)
    decreases |s|
  {
    NonBlankFromStore(s);
    if |s| > 0 {
      var init := s[..|s| - 1];
      var last := s[|s| - 1];
      SaveIgnoresBlank(init);
      BlankIffEmptyPeople(last);
      var nb := NonBlankRows(s);
      if !IsBlank(last) {
        assert nb[..|nb| - 1] == NonBlankRows(init);
      }
    }
  }

  /** For a row the saver can handle, blank means its record has an empty People field. */
  lemma BlankIffEmptyPeople(row: Row)
    requires |ReadablePrefix(row)| > ToUsize(People)
    ensures IsBlank(row) <==> ReadablePrefix(row)[ToUsize(People)] == ""
  {
    assert row[ToUsize(People)] == Some(ReadablePrefix(row)[ToUsize(People)]);
  }

  lemma {:induction false} NonBlankFromStore(s: Store)
    ensures forall k :: 0 <= k < |NonBlankRows(s)| ==> NonBlankRows(s)[k] in s
    decreases |s|
  {
    if |s| > 0 {
      NonBlankFromStore(s[..|s| - 1]);
    }
  }

}

=== FILE: text.dfy ===
/**
  The string primitives the search and numbering logic relies on: `i32` parsing and
  formatting, lower-casing, splitting on whitespace and substring containment.
 */
module Text {
  import opened Wrappers
  import opened Ints

  /* ---------------------------------------------------------------------- */
  /* Characters                                                              */
  /* ---------------------------------------------------------------------- */

  /** The Unicode White_Space property, which is what `char::is_whitespace` tests. */
  predicate IsWhitespace(c: char) {
    var n := c as int;
    || 0x09 <= n <= 0x0D
    || n == 0x20 || n == 0x85 || n == 0xA0 || n == 0x1680
    || 0x2000 <= n <= 0x200A
    || n == 0x2028 || n == 0x2029 || n == 0x202F || n == 0x205F || n == 0x3000
  }

  predicate NoWhitespace(s: string) {
    forall i :: 0 <= i < |s| ==> !IsWhitespace(s[i])
  }

  predicate AllWhitespace(s: string) {
    forall i :: 0 <= i < |s| ==> IsWhitespace(s[i])
  }

  predicate IsDigit(c: char) {
    '0' <= c <= '9'
  }

  predicate AllDigits(s: string) {
    forall i :: 0 <= i < |s| ==> IsDigit(s[i])
  }

  /** Lower-casing of one character; only the ASCII letters are mapped. */
  function LowerChar(c: char): char {
    if 'A' <= c <= 'Z' then (c as int + 32) as char else c
  }

  /** `str::to_lowercase`, restricted to ASCII letters. */
  function Lower(s: string): (r: string)
    ensures |r| == |s|
  {
    seq(|s|, i requires 0 <= i < |s| => LowerChar(s[i]))
  }

  /** Lower-casing twice is lower-casing once. */
  lemma LowerIdempotent(s: string)
    ensures Lower(Lower(s)) == Lower(s)
  {
    var once := Lower(s);
    var twice := Lower(once);
    forall i | 0 <= i < |s|
      ensures twice[i] == once[i]
    {
      assert once[i] == LowerChar(s[i]);
    }
  }

  /** Lower-casing a slice is slicing the lower-cased text. */
  lemma LowerSlice(s: string, i: nat, j: nat)
    requires i <= j <= |s|
    ensures Lower(s)[i..j] == Lower(s[i..j])
  {
  }

  /** Lower-casing neither adds nor removes whitespace. */
  lemma LowerKeepsSolid(s: string)
    requires NoWhitespace(s)
    ensures NoWhitespace(Lower(s))
  {
    forall i | 0 <= i < |s|
      ensures !IsWhitespace(Lower(s)[i])
    {
      assert Lower(s)[i] == LowerChar(s[i]);
    }
  }

  /** Upper-case letters do fold: the example card's name lower-cases as expected. */
  lemma LowerExample()
    ensures Lower("Smith John, Robert") == "smith john, robert"
  {
  }

  /* ---------------------------------------------------------------------- */
  /* Substring containment                                                   */
  /* ---------------------------------------------------------------------- */

  predicate OccursAt(hay: string, pat: string, i: nat) {
    i + |pat| <= |hay| && hay[i..i + |pat|] == pat
  }

  /** `str::contains`: `pat` is a contiguous piece of `hay` (the empty string always is). */
  predicate Contains(hay: string, pat: string) {
    exists i: nat | i <= |hay| :: OccursAt(hay, pat, i)
  }

  /** The iterator `all` over the tokens, stopping at the first token that is missing. */
  function AllContained(tokens: seq<string>, hay: string): (b: bool)
    ensures b <==> forall k :: 0 <= k < |tokens| ==> Contains(hay, tokens[k])
  {
    if |tokens| == 0 then true
    else if !Contains(hay, tokens[0]) then false
    else
      var rest := AllContained(tokens[1..], hay);
      assert forall k :: 1 <= k < |tokens| ==> tokens[k] == tokens[1..][k - 1];
      rest
  }

  /* ---------------------------------------------------------------------- */
  /* Splitting on whitespace                                                 */
  /* ---------------------------------------------------------------------- */

  /** The length of the leading run of whitespace of `s`. */
  function BlankPrefix(s: string): (n: nat)
    ensures n <= |s|
    ensures forall i :: 0 <= i < n ==> IsWhitespace(s[i])
    ensures n < |s| ==> !IsWhitespace(s[n])
  {
    if |s| > 0 && IsWhitespace(s[0]) then 1 + BlankPrefix(s[1..]) else 0
  }

  /** The length of the leading run of non-whitespace of `s`. */
  function SolidPrefix(s: string): (n: nat)
    ensures n <= |s|
    ensures forall i :: 0 <= i < n ==> !IsWhitespace(s[i])
    ensures n < |s| ==> IsWhitespace(s[n])
  {
    if |s| > 0 && !IsWhitespace(s[0]) then 1 + SolidPrefix(s[1..]) else 0
  }

  /** The characters of `s` that are not whitespace, in order. */
  function Squeeze(s: string): string {
    if |s| == 0 then ""
    else if IsWhitespace(s[0]) then Squeeze(s[1..])
    else [s[0]] + Squeeze(s[1..])
  }

  function Flatten(ws: seq<string>): string {
    if |ws| == 0 then "" else ws[0] + Flatten(ws[1..])
  }

  /**
    `str::split_whitespace`: the maximal runs of non-whitespace characters, in order.
    Every token is non-empty and free of whitespace.
   */
  function Words(s: string): (ws: seq<string>)
    ensures forall k :: 0 <= k < |ws| ==> |ws[k]| > 0 && NoWhitespace(ws[k])
    decreases |s|
  {
    var t := s[BlankPrefix(s)..];
    if |t| == 0 then []
    else
      var n := SolidPrefix(t);
      [t[..n]] + Words(t[n..])
  }

  /** A text splits into no tokens exactly when it is blank. */
  lemma WordsEmptyIffBlank(s: string)
    ensures |Words(s)| == 0 <==> AllWhitespace(s)
  {
    var b := BlankPrefix(s);
    if b < |s| {
      assert !IsWhitespace(s[b]);
    } else {
      assert AllWhitespace(s);
    }
  }

  /** The tokens hold every non-whitespace character of the text, and nothing else, in order. */
  lemma {:induction false} WordsCoverText(s: string)
    ensures Flatten(Words(s)) == Squeeze(s)
    decreases |s|
  {
    var b := BlankPrefix(s);
    var t := s[b..];
    SqueezeSplit(s, b, true);
    if |t| > 0 {
      var n := SolidPrefix(t);
      var w := t[..n];
      var rest := Words(t[n..]);
      assert Words(s) == [w] + rest;
      SqueezeSplit(t, n, false);
      SqueezeSolid(w);
      WordsCoverText(t[n..]);
      FlattenCons(w, rest);
    }
  }

  /** Squeezing a text is squeezing its two parts, with a blank part dropping out. */
  lemma SqueezeSplit(s: string, b: nat, blank: bool)
    requires b <= |s|
    requires blank ==> forall i :: 0 <= i < b ==> IsWhitespace(s[i])
    ensures Squeeze(s) == Squeeze(s[..b]) + Squeeze(s[b..])
    ensures blank ==> Squeeze(s) == Squeeze(s[b..])
  {
    assert s == s[..b] + s[b..];
    SqueezeAppend(s[..b], s[b..]);
    if blank {
      SqueezeBlank(s[..b]);
    }
  }

  lemma FlattenCons(w: string, ws: seq<string>)
    ensures Flatten([w] + ws) == w + Flatten(ws)
  {
    assert ([w] + ws)[1..] == ws;
  }

  lemma {:induction false} SqueezeAppend(a: string, b: string)
    ensures Squeeze(a + b) == Squeeze(a) + Squeeze(b)
    decreases |a|
  {
    if |a| > 0 {
      assert (a + b)[1..] == a[1..] + b;
      SqueezeAppend(a[1..], b);
    } else {
      assert a + b == b;
    }
  }

  lemma {:induction false} SqueezeBlank(s: string)
    requires AllWhitespace(s)
    ensures Squeeze(s) == ""
    decreases |s|
  {
    if |s| > 0 {
      SqueezeBlank(s[1..]);
    }
  }

  lemma {:induction false} SqueezeSolid(s: string)
    requires NoWhitespace(s)
    ensures Squeeze(s) == s
    decreases |s|
  {
    if |s| > 0 {
      SqueezeSolid(s[1..]);
    }
  }

  /** A non-empty text without whitespace is one token: tokens are maximal runs. */
  lemma WordsOfSolid(w: string)
    requires |w| > 0 && NoWhitespace(w)
    ensures Words(w) == [w]
  {
    assert BlankPrefix(w) == 0;
    assert w[0..] == w;
    assert SolidPrefix(w) == |w|;
    assert w[..|w|] == w;
    assert w[|w|..] == "";
    assert Words("") == [] by {
      assert BlankPrefix("") == 0;
      assert ""[0..] == "";
    }
  }

  /** A whitespace-free run followed by whitespace or nothing is the leading token. */
  lemma WordsCons(w: string, rest: string)
    requires |w| > 0 && NoWhitespace(w)
    requires |rest| == 0 || IsWhitespace(rest[0])
    ensures Words(w + rest) == [w] + Words(rest)
  {
    var s := w + rest;
    assert !IsWhitespace(s[0]);
    assert BlankPrefix(s) == 0;
    assert s[0..] == s;
    SolidPrefixOf(w, rest);
    assert s[..|w|] == w;
    assert s[|w|..] == rest;
  }

  lemma SolidPrefixOf(w: string, rest: string)
    requires NoWhitespace(w)
    requires |rest| == 0 || IsWhitespace(rest[0])
    ensures SolidPrefix(w + rest) == |w|
  {
    var s := w + rest;
    assert forall i :: 0 <= i < |w| ==> s[i] == w[i];
    assert |rest| > 0 ==> s[|w|] == rest[0];
  }

  /* ---------------------------------------------------------------------- */
  /* i32 parsing and formatting                                              */
  /* ---------------------------------------------------------------------- */

  function DigitValue(c: char): nat
    requires IsDigit(c)
  {
    c as int - '0' as int
  }

  function DigitChar(d: nat): (c: char)
    requires d < 10
    ensures IsDigit(c) && DigitValue(c) == d
  {
    ('0' as int + d) as char
  }

  /** The value of a string of decimal digits, most significant first. */
  function DigitsValue(s: string): nat
    requires AllDigits(s)
  {
    if |s| == 0 then 0 else DigitsValue(s[..|s| - 1]) * 10 + DigitValue(s[|s| - 1])
  }

  /** The shape `parse::<i32>` accepts: an optional sign, then at least one digit. */
  predicate IntegerSyntax(s: string) {
    && |s| > 0
    && var digits := if s[0] == '+' || s[0] == '-' then s[1..] else s;
       |digits| > 0 && AllDigits(digits)
  }

  /**
    `str::parse::<i32>`: an optional `+` or `-`, one or more ASCII digits, and a value
    inside the `i32` range; anything else (the empty string, a lone sign, whitespace,
    an overflowing value) is an error.
   */
  function ParseI32(s: string): (r: Option<int>)
    ensures r.Some? ==> I32_MIN <= r.value <= I32_MAX
  {
    if |s| == 0 then None
    else
      var negative := s[0] == '-';
      var digits := if s[0] == '+' || s[0] == '-' then s[1..] else s;
      if |digits| == 0 || !AllDigits(digits) then None
      else
        var v: int := if negative then -(DigitsValue(digits) as int) else DigitsValue(digits);
        if I32_MIN <= v <= I32_MAX then Some(v) else None
  }

  /** Whatever parses has the integer shape, so it holds no whitespace and is not blank. */
  lemma ParsedIsInteger(s: string)
    requires ParseI32(s).Some?
    ensures IntegerSyntax(s)
    ensures NoWhitespace(s) && !AllWhitespace(s)
  {
    var digits := if s[0] == '+' || s[0] == '-' then s[1..] else s;
    assert s[|s| - 1] == digits[|digits| - 1];
  }

  /** Decimal digits of `n`, without leading zeros. */
  function NatDigits(n: nat): (s: string)
    ensures |s| > 0 && AllDigits(s) && DigitsValue(s) == n
    ensures s[0] == '0' ==> n == 0 && s == "0"
    decreases n
  {
    if n < 10 then [DigitChar(n)]
    else
      var high := NatDigits(n / 10);
      var s := high + [DigitChar(n % 10)];
      assert s[..|s| - 1] == high;
      s
  }

  /** `format!("{}", n)` for an `i32`: parsing the text gives `n` back. */
  function FormatI32(n: i32): (s: string)
    ensures ParseI32(s) == Some(n)
    ensures |s| > 0 && s[0] != '+' && (s[0] == '-' <==> n < 0)
    ensures var digits := if n < 0 then s[1..] else s;
            |digits| > 0 && AllDigits(digits) && (digits[0] == '0' ==> n == 0 && digits == "0")
  {
    if n < 0 then
      var s := "-" + NatDigits(-(n as int));
      assert s[1..] == NatDigits(-(n as int));
      s
    else NatDigits(n)
  }

}

=== FILE: window.dfy ===
/**
  The open document behind the main window: the record store, the current lower-cased
  search needle and the unsaved-changes flag, with the search, edit and insert actions.
 */
module Window {
  import opened Wrappers
  import opened Ints
  import opened Text
  import opened Columns
  import opened ListStore
  import opened Filter

  datatype Document = Document(store: Store, needle: string, dirty: bool)

  /** The state of a window before any file is opened. */
  function NewDocument(): (d: Document)
    ensures |d.store| == 0 && d.needle == "" && !d.dirty
  {
    Document(NewStore(), "", false)
  }

  function SetDirty(d: Document, dirty: bool): (r: Document)
    ensures IsDirty(r) == dirty
    ensures r.store == d.store && r.needle == d.needle
  {
    d.(dirty := dirty)
  }

  function IsDirty(d: Document): (b: bool)
    ensures b <==> d.dirty
  {
    d.dirty
  }

  /** `search`: captures the search text, lower-cased, as the needle. */
  function Search(d: Document, text: string): (r: Document)
    ensures r.store == d.store && r.dirty == d.dirty
    ensures Lower(r.needle) == r.needle
  {
    LowerIdempotent(text);
    d.(needle := Lower(text))
  }

  /** The rows the tree view shows: the store positions that pass the current needle. */
  function View(d: Document): (v: seq<nat>)
    ensures forall k :: 0 <= k < |d.store| ==> (k in v <==> FilterFunc(d.store, TreeIter(k), d.needle))
    ensures forall i, j :: 0 <= i < j < |v| ==> v[i] < v[j] < |d.store|
  {
    VisibleRows(d.store, d.needle)
  }

  /**
    After a search the view holds exactly the rows that pass the lower-cased text, in
    store order; the text is a number lookup exactly when it parses as an `i32`.
   */
  lemma SearchShowsMatches(d: Document, text: string, k: nat)
    requires k < |d.store|
    ensures k in View(Search(d, text)) <==> FilterFunc(d.store, TreeIter(k), Lower(text))
    ensures ParseI32(Lower(text)) == ParseI32(text)
  {
    ParseIgnoresCase(text);
  }

  /** Lower-casing leaves signs and digits alone, so it never changes what a text parses to. */
  lemma ParseIgnoresCase(text: string)
    ensures ParseI32(Lower(text)) == ParseI32(text)
  {
    var lowered := Lower(text);
    if |text| > 0 {
      assert lowered[0] == LowerChar(text[0]);
      var digits := if text[0] == '+' || text[0] == '-' then text[1..] else text;
      var lowDigits := if lowered[0] == '+' || lowered[0] == '-' then lowered[1..] else lowered;
      assert |lowDigits| == |digits|;
      if AllDigits(digits) || AllDigits(lowDigits) {
        assert forall i :: 0 <= i < |digits| ==> lowDigits[i] == LowerChar(digits[i]);
        assert lowDigits == digits;
      }
    }
  }

  /**
    Searching for a word of a row's People field, typed in any mix of upper and lower case,
    shows that row.
   */
  lemma SearchIgnoresCase(d: Document, text: string, k: nat, field: string, i: nat, j: nat)
    requires k < |d.store| && Value(d.store, TreeIter(k), People) == Some(field)
    requires i < j <= |field| && NoWhitespace(field[i..j])
    requires Lower(text) == Lower(field[i..j]) && ParseI32(text).None?
    ensures k in View(Search(d, text))
  {
    ParseIgnoresCase(text);
    CaseInsensitiveWord(d.store, TreeIter(k), field, i, j);
    SearchShowsMatches(d, text, k);
  }

  /** "SMITH" and "smith" both find the card of "Smith John, Robert". */
  lemma SmithExample(d: Document, k: nat)
    requires k < |d.store| && Value(d.store, TreeIter(k), People) == Some("Smith John, Robert")
    ensures k in View(Search(d, "smith")) && k in View(Search(d, "SMITH"))
  {
    var field := "Smith John, Robert";
    assert field[0..5] == "Smith";
    assert NoWhitespace("Smith");
    assert Lower("smith") == "smith" && Lower("SMITH") == "smith" && Lower("Smith") == "smith";
    assert ParseI32("smith").None? && ParseI32("SMITH").None?;
    SearchIgnoresCase(d, "smith", k, field, 0, 5);
    SearchIgnoresCase(d, "SMITH", k, field, 0, 5);
  }

  /** The store row that is the i-th row passing the predicate. */
  predicate IsViewRow(d: Document, i: nat, k: nat) {
    && k < |d.store|
    && FilterFunc(d.store, TreeIter(k), d.needle)
    && |Positions(Shown(d.store, d.needle), k)| == i
  }

  /** A path the tree view can hand out: one index inside the view. */
  predicate ValidViewPath(d: Document, path: TreePath) {
    |path.indices| == 1 && 0 <= path.indices[0] < |View(d)|
  }

  /** `convert_path`: the store path of the row shown at a view path. */
  function ConvertPath(d: Document, path: TreePath): (child: TreePath)
    requires ValidViewPath(d, path)
    ensures |child.indices| == 1 && 0 <= child.indices[0]
    ensures IsViewRow(d, path.indices[0], child.indices[0])
    ensures forall k :: IsViewRow(d, path.indices[0], k) ==> k == child.indices[0]
  {
    var i := path.indices[0];
    PositionsRank(Shown(d.store, d.needle), |d.store|, i);
    var k0 := View(d)[i];
    assert forall k :: IsViewRow(d, i, k) ==> k == k0 by {
      forall k | IsViewRow(d, i, k)
        ensures k == k0
      {
        PositionsRankUnique(Shown(d.store, d.needle), i, k, k0);
      }
    }
    TreePath([k0])
  }

  /**
    `update_column`: an edit at a view path lands on the store row shown there. Text equal
    to the current value, or a cell that does not read, changes nothing; other text
    rewrites that one cell and marks the document dirty.
   */
  function UpdateColumn(d: Document, path: TreePath, column: Column, text: string): (r: Document)
    requires ValidViewPath(d, path)
    ensures r.needle == d.needle && |r.store| == |d.store|
    ensures var k := ConvertPath(d, path).indices[0];
            var current := Value(d.store, TreeIter(k), column);
            if current.Some? && current.value != text then
              && r.dirty
              && Value(r.store, TreeIter(k), column) == Some(text)
              && forall j, c :: 0 <= j < |d.store| && (j != k || c != column) ==>
                   Value(r.store, TreeIter(j), c) == Value(d.store, TreeIter(j), c)
            else r == d
  {
    var child := ConvertPath(d, path);
    PathIterInverse(d.store, TreeIter(child.indices[0]), child);
    var it := Iter(d.store, child).value;
    var value := Value(d.store, it, column);
    if value.Some? && text != value.value then
      SetDirty(d.(store := SetValue(d.store, it, column, text)), true)
    else d
  }

  /* ---------------------------------------------------------------------- */
  /* Inserting a row with the next membership number                        */
  /* ---------------------------------------------------------------------- */

  /** The membership number of row k, when its Number field reads and parses. */
  function NumberAt(s: Store, k: nat): Option<int>
    requires k < |s|
  {
    match Value(s, TreeIter(k), Number)
    case None => None
    case Some(text) => ParseI32(text)
  }

  /**
    `n` is one more than the largest number among the first `upto` rows, or 1 when none
    of them has a number or the largest is below 1.
   */
  ghost predicate IsNextNumber(s: Store, upto: nat, n: int)
    requires upto <= |s|
  {
    && n >= 1
    && (forall k :: 0 <= k < upto && NumberAt(s, k).Some? ==> NumberAt(s, k).value < n)
    && (n == 1 || exists k :: 0 <= k < upto && NumberAt(s, k) == Some(n - 1))
  }

  /** `value + 1` overflows on a number equal to `i32::MAX`; the window panics there. */
  predicate NoMaxNumber(s: Store) {
    forall k :: 0 <= k < |s| ==> NumberAt(s, k) != Some(I32_MAX)
  }

  lemma NextNumberUnique(s: Store, upto: nat, n1: int, n2: int)
    requires upto <= |s|
    requires IsNextNumber(s, upto, n1) && IsNextNumber(s, upto, n2)
    ensures n1 == n2
  {
  }

  lemma NextNumberStep(s: Store, i: nat, previous: int, number: int)
    requires i < |s| && IsNextNumber(s, i, previous) && previous <= I32_MAX
    requires NoMaxNumber(s)
    requires NumberAt(s, i).None? ==> number == previous
    requires NumberAt(s, i).Some? ==>
               number == if NumberAt(s, i).value + 1 > previous then NumberAt(s, i).value + 1 else previous
    ensures IsNextNumber(s, i + 1, number) && number <= I32_MAX
  {
    assert NumberAt(s, i) != Some(I32_MAX);
    if number != 1 && number != previous {
      assert NumberAt(s, i) == Some(number - 1);
    }
  }

  /** The numbering scan of `insert_action`: a first/next walk taking max(number, value + 1). */
  method NextNumber(s: Store) returns (number: int)
    requires NoMaxNumber(s)
    ensures IsNextNumber(s, |s|, number)
    ensures number <= I32_MAX
  {
    number := 1;
    var first := IterFirst(s);
    if first.Some? {
      var it := first.value;
      while true
        invariant ValidIter(s, it)
        invariant IsNextNumber(s, it.index, number) && number <= I32_MAX
        decreases |s| - it.index
      {
        var value := Value(s, it, Number);
        var previous := number;
        if value.Some? {
          match ParseI32(value.value) {
            case Some(v) =>
              if v + 1 > number {
                number := v + 1;
              }
            case None =>
          }
        }
        NextNumberStep(s, it.index, previous, number);
        var next := IterNext(s, it);
        if next.None? {
          break;
        }
        it := next.value;
      }
    }
  }

  /**
    `insert_action`: appends one row holding `date` and the next membership number, all
    other fields empty; earlier rows, the needle and the dirty flag stay as they were.
    `date` is the current day as the clock formats it.
   */
  method InsertAction(d: Document, date: string) returns (r: Document)
    requires NoMaxNumber(d.store)
    ensures |r.store| == |d.store| + 1 && r.store[..|d.store|] == d.store
    ensures r.needle == d.needle && r.dirty == d.dirty
    ensures var last := TreeIter(|d.store|);
            && Value(r.store, last, Date) == Some(date)
            && NumberAt(r.store, |d.store|).Some?
            && IsNextNumber(d.store, |d.store|, NumberAt(r.store, |d.store|).value)
            && Value(r.store, last, Number) == Some(FormatI32(NumberAt(r.store, |d.store|).value))
            && forall c :: c != Date && c != Number ==> Value(r.store, last, c) == Some("")
  {
    var number := NextNumber(d.store);
    var values := NewRow();
    values := values[ToUsize(Number) := FormatI32(number)];
    values := values[ToUsize(Date) := date];
    var (appended, it) := Append(d.store);
    var store := SetAllValues(appended, it, values);
    assert store[..|d.store|] == d.store by {
      forall j | 0 <= j < |d.store|
        ensures store[j] == d.store[j]
      {
        assert forall c :: store[j][ToU8(c)] == d.store[j][ToU8(c)] by {
          forall c ensures store[j][ToU8(c)] == d.store[j][ToU8(c)] {
            assert Value(store, TreeIter(j), c) == Value(appended, TreeIter(j), c);
          }
        }
        assert store[j][0] == store[j][ToU8(Date)];
        assert store[j][1] == store[j][ToU8(Number)];
        assert store[j][2] == store[j][ToU8(People)];
        assert store[j][3] == store[j][ToU8(Signature)];
        assert store[j][4] == store[j][ToU8(Flags)];
        assert store[j][5] == store[j][ToU8(ID)];
      }
    }
    r := d.(store := store);
  }

  /** Card numbers 1, 3 and an unparsable "x": the next number is 4. */
  lemma NextNumberExample(s: Store)
    requires |s| == 3
    requires Value(s, TreeIter(0), Number) == Some("1")
    requires Value(s, TreeIter(1), Number) == Some("3")
    requires Value(s, TreeIter(2), Number) == Some("x")
    ensures IsNextNumber(s, 3, 4)
  {
    assert "1"[..0] == "" && "3"[..0] == "";
    assert NumberAt(s, 0) == Some(1);
    assert NumberAt(s, 1) == Some(3);
    assert NumberAt(s, 2) == None;
  }

  /** The row just inserted carries the largest number, so the next insert continues from it. */
  lemma InsertedNumberFollows(d: Document, r: Document, n: int)
    requires |r.store| == |d.store| + 1 && r.store[..|d.store|] == d.store
    requires IsNextNumber(d.store, |d.store|, n)
    requires NumberAt(r.store, |d.store|) == Some(n)
    ensures IsNextNumber(r.store, |r.store|, n + 1)
  {
    forall k | 0 <= k < |d.store|
      ensures NumberAt(r.store, k) == NumberAt(d.store, k)
    {
      assert r.store[k] == d.store[k];
    }
  }

}

=== FILE: wrappers.dfy ===
/** The optional value used for reads that can fail and for lookups that can miss. */
module Wrappers {

  datatype Option<+T> = None | Some(value: T)

}
